=== FILE: README.md ===
# Mini expense tracker: the ledger, modelled in Dafny

The tracker is a one-page app that keeps one store of expenses per user. An
expense record is a timestamp (to the minute), a whole-number amount of at
least 1, one of five category labels, and a free-text note. Records are only
ever appended: adding an expense loads the whole store, puts the new record
at the end and writes the whole store back. Every run of the page then shows:

- the records between two chosen dates (by default the dates of the earliest
  and latest record);
- their total;
- a pie chart of per-category sums, drawn only when there is something to chart;
- the kept records newest first;
- and, over the whole store, the top-spending category of every month.

The model replaces the data frame with sequences of records and the files
with a map from file name to record sequence. Modules:

- `Wrappers` (wrappers.dfy): `Option`.
- `Expense` (expense.dfy): categories and their labels, timestamps and dates
  with their chronological order, the record.
- `Aggregate` (aggregate.dfy): the date filter and its default range, the
  total, the per-category sums, the chart guard, the reversed table.
- `Monthly` (monthly.dfy): the (month, category) summary and the top spend
  per month.
- `Store` (store.dfy): the per-user file name and the `Disk` class with
  `Open`, `Load` and `AddExpense`.
- `Report` (report.dfy): one run of the page, from username to view.
- `Walkthrough` (walkthrough.dfy): a worked example with three records.

Points where the code decides the behaviour:

- **The end date is compared as 00:00 of that day, not as the end of the day.**
  So the date range keeps a record stamped on the end date only when it was
  logged at exactly 00:00. With the default range this usually drops the
  latest record. The model keeps this behaviour. `SingleDayKeepsOnlyMidnight`
  and `LatestDroppedUnlessMidnight` state it. Reading the range as "whole days
  inclusive" would be a different program.
- **Ties in the monthly report are deterministic.** The group-by sorts its keys.
  idxmax takes the first maximum. So a tie goes to the category whose label
  sorts first. The labels begin with emoji, so by code point the order is
  Food (U+1F35C), Fun (U+1F389), Shopping (U+1F4BC), Other (U+1F4CC),
  Travel (U+1F695). `Rank` encodes this order, and `RankFollowsLabels` proves
  it is the string order of the labels.

## Model

| member | source | states |
|---|---|---|
| `Expense.RankFollowsLabels` | main.py:35 | ranking two categories agrees with comparing their labels as strings by code point, and distinct categories have distinct labels |
| `Expense.CategoriesEnumerated` | main.py:35 | the five categories, listed in sorted label order, each at the position of its rank |
| `Expense.MidnightStartsDay` | main.py:59 | a valid timestamp is at or after 00:00 of date d exactly when its own date is not before d |
| `Expense.AtOrBeforeMidnight` | main.py:59 | a valid timestamp is at or before 00:00 of date d exactly when its date is before d or it is d at 00:00 |
| `Store.StorePath` | main.py:14-20 | no store for an empty username; otherwise a name of length 5 + len(username) + 4 |
| `Store.StorePathRoundTrip` | main.py:20 | the username is recovered from "data_" + username + ".csv" |
| `Store.StorePathInjective` | main.py:20 | the store file name determines the username: two usernames giving the same name string are equal |
| `Store.Disk.Open` | main.py:14-23 | empty username: nothing changes and no store is selected; otherwise the user's store exists afterwards, created empty only if absent, other stores untouched |
| `Store.Disk.Load` | main.py:25 | returns the selected store's records as stored |
| `Store.Disk.AddExpense` | main.py:41-48 | the new record (given time, amount, category, note) follows all old ones, which stay in place and in order; length grows by one; other stores unchanged; every record keeps a valid timestamp |
| `Aggregate.InRange` | main.py:59 | the mask; its meaning in date terms is stated by `KeptIffOnOrAfterStartAndByEndMidnight`, and that the filter keeps exactly the positions where it holds by `KeptPositionsExact` |
| `Aggregate.Filter` | main.py:59-60 | a record is in the result exactly when it is in the store and lies between 00:00 of the start date and 00:00 of the end date; never longer than the store |
| `Aggregate.FilterIsSubsequence` | main.py:59-60 | the result is the store restricted to strictly increasing positions: an order-preserving subsequence |
| `Aggregate.KeptPositionsExact` | main.py:59-60 | a store position is among the kept positions exactly when the mask holds for the record there |
| `Aggregate.KeptIffOnOrAfterStartAndByEndMidnight` | main.py:59 | the mask keeps a record iff its date is not before the start date and it is before the end date or exactly 00:00 of the end date |
| `Aggregate.SingleDayKeepsOnlyMidnight` | main.py:59-60 | with start = end = d, exactly the records stamped d 00:00 are kept, by position |
| `Aggregate.InvertedRangeKeepsNothing` | main.py:59-60 | a start date after the end date keeps nothing |
| `Aggregate.Earliest` | main.py:55 | the earliest timestamp is some record's and is at or before every record's |
| `Aggregate.Latest` | main.py:55 | the latest timestamp is some record's and is at or after every record's |
| `Aggregate.DefaultRange` | main.py:55-57 | today twice for an empty store; otherwise the dates of some record each, with every record's date between them; what it keeps is stated by `DefaultRangeKeeps` |
| `Aggregate.DefaultRangeKeeps` | main.py:55-60 | under the default range a record is kept exactly when it is at or before 00:00 of the latest record's date |
| `Aggregate.LatestDroppedUnlessMidnight` | main.py:55-60 | under the default range, when the latest record is not stamped 00:00, that record is left out |
| `Aggregate.Total` | main.py:62 | the total is at least the number of records (every amount is at least 1), so it is 0 exactly for no records |
| `Aggregate.TotalConcat` | main.py:62 | the total of two record runs joined is the sum of their totals |
| `Aggregate.Dropped` | main.py:59-60 | a record is dropped exactly when it is in the store and the mask is false for it: the complement of the filter |
| `Aggregate.FilterSplitsTotal` | main.py:62 | the total of the kept records plus the total of the dropped ones (as `Dropped` states them) is the store's total |
| `Aggregate.CategoryTotal` | main.py:66 | a category's sum is at most the total and is positive exactly when the category occurs |
| `Aggregate.GroupByCategory` | main.py:66 | one entry per category that occurs and none for one that does not, each with that category's sum, in increasing label order; no entries for no records |
| `Aggregate.CategorySumsConserveTotal` | main.py:62-66 | the per-category sums add up to the total |
| `Aggregate.ChartDrawn` | main.py:65 | the chart guard holds exactly when the selection is non-empty (for sums that do not overflow, its positive-total test never decides anything); `ChartDrawnIffSlices` adds that this is exactly when there is a slice |
| `Aggregate.ChartDrawnIffSlices` | main.py:65-83 | the chart branch runs exactly when some record is kept, and exactly when there is at least one slice |
| `Aggregate.Reversed` | main.py:86 | the displayed table has as many rows as the kept records |
| `Aggregate.ReversedAt` | main.py:86 | the k-th displayed row is the k-th kept record counted from the end |
| `Aggregate.ReversedRows` | main.py:86 | every row of the reversed view is the record at the mirrored position of the selection |
| `Aggregate.ReversedTwice` | main.py:86 | reversing the table twice gives back the kept records in their order, so the table loses and reorders nothing beyond the reversal |
| `Monthly.InsertMonth` | main.py:92 | inserting a month key into a sorted distinct list keeps it sorted and adds exactly that key |
| `Monthly.Months` | main.py:91-92 | the month keys listed are exactly those of the records, strictly increasing |
| `Monthly.InMonth` | main.py:91-92 | a record is in a month's group exactly when it is in the store and has that month key |
| `Monthly.MonthlySummaryHolds` | main.py:91-92 | a row is in the summary exactly when its month and category occur together, and it carries their summed amount |
| `Monthly.MonthlySummary` | main.py:92 | the summary rows are strictly increasing by month key, then by category label (so no pair twice); which rows it holds is stated by `MonthlySummaryHolds` |
| `Monthly.FirstMax` | main.py:93 | the index chosen holds a maximum sum, and every earlier row's sum is strictly smaller |
| `Monthly.Winner` | main.py:93 | the winning category occurs, carries its sum, is at least every category's sum, and beats every category ranked before it strictly |
| `Monthly.TopOf` | main.py:93 | a month's row: its category occurs in the month with that sum, at least every category's sum in the month, strictly more than every earlier-ranked category's |
| `Monthly.TopSpends` | main.py:93 | one row per month key, in the order of the months |
| `Monthly.TopSpendsCorrect` | main.py:91-93 | rows strictly increasing by month; a month has a row exactly when it occurs; every row is a summary row; its sum is the month's largest, and ties go to the first category |
| `Monthly.MonthlyReport` | main.py:90 | the report exists exactly when the store is not empty, and then has at least one row |
| `Report.Render` | main.py:59-93 | the view of one run over a store and a range; how its parts agree is stated by `RenderConsistent` |
| `Report.RenderConsistent` | main.py:59-93 | in one view the chart is drawn iff something is kept, its slices add up to the total, the total is 0 iff nothing is kept, the table is the kept records newest first, and the monthly report ignores the range |
| `Report.AppendMovesTotal` | main.py:47-62 | over one fixed range (e.g. dates the user chose), appending a record raises the shown total by its amount if the range keeps it, and leaves it unchanged otherwise; under the default range an append also moves the end bound to the new record's date, so records of the previous latest day become visible while the new record is usually dropped |
| `Report.Run` | main.py:14-93 | empty username: nothing shown, nothing changed; otherwise the store after the run is the old one (or empty) plus the submitted record, and the view is rendered from it over the chosen or the default range |
| `Walkthrough.LoggedTotals` | main.py:62-66 | three records (Food 100, Travel 50, Food 30) total 180 and group as Food 130, Travel 50 |
| `Walkthrough.JanuaryTotals` | main.py:59-66 | the January range keeps the first two, total 150, Food 100, Travel 50 |
| `Walkthrough.LoggedMonths` | main.py:91-92 | the three records span the month keys 2024-01 and 2024-02 |
| `Walkthrough.JanuaryWinner` | main.py:93 | January's top row is Food with 100 |
| `Walkthrough.FebruaryWinner` | main.py:93 | February's top row is Food with 30 |
| `Walkthrough.LoggedTopSpends` | main.py:91-93 | the report is (2024-01, Food, 100), (2024-02, Food, 30) |

## Left out

- The page furniture is not modelled: page configuration, stylesheet load, sidebar, form widgets, success messages, rerun, expanders, the data table widget and the download button. It is presentation with nothing to prove. The username's 20-character widget limit is also not modelled.
- Store.Disk: stores are keyed by the file-name string, not by the file the operating system resolves it to. So two usernames that reach one file are not modelled: names differing only in letter case on a case-insensitive file system, or names containing `/` or `..`. A failed write, such as a username naming a missing directory, is not modelled either; `Open` and `AddExpense` always succeed.
- CSV reading and writing is not modelled: file existence, header, quoting, and parse failures on a damaged file. Stores are an in-memory map from file name to record sequence, and a stored record reads back unchanged. In the source the CSV reader infers the Note column's type, so an empty note reads back as NaN and a Note column of digits only reads back as numbers ("007" as 7); this changes only the note shown in the table (main.py:25, main.py:86).
- The current time is a parameter (`now`, `today`), not a clock read. The "%Y-%m-%d %H:%M" formatting and the date parsing are replaced by the `Stamp` and `Date` datatypes.
- Month keys are (year, month) pairs, not "YYYY-MM" strings. For four-digit years the two orders agree.
- The pie chart's drawing and its rupee labels (`actual_rupees`) are not modelled. They use floating-point percentages and rounding. Only the slices, the per-category sums, are modelled.
- Aggregate.Total: sums are unbounded integers. The source sums 64-bit integers, which wrap silently past 2^63-1. This affects the total, the chart guard, the category sums and the monthly sums (main.py:62-66, 92). The total is also printed with two decimals through a binary float, which rounds above 2^53 (main.py:63). Neither is modelled. So `Total(fs) == 0 <==> fs == []` and `ChartDrawn(fs) <==> fs != []` hold only for sums that do not overflow. For such sums the two decimals only add ".00".
- Two sessions writing the same store can lose an update. That is concurrency on the file system, which this sequential model does not have.

=== FILE: aggregate.dfy ===
/**
 * The aggregations over the in-memory store: the date-range filter with its
 * default bounds, the total, the per-category sums behind the pie chart, the
 * guard that decides whether the chart is drawn, and the reversed table view.
 * The functions over records recurse on the last record, so that appending a
 * record is one unfolding step.
 */
module Aggregate {
  import opened Expense

  function Last(rs: seq<Record>): Record
    requires rs != []
  {
    rs[|rs| - 1]
  }

  function Init(rs: seq<Record>): seq<Record>
    requires rs != []
  {
    rs[..|rs| - 1]
  }

  lemma InitLast(rs: seq<Record>)
    requires rs != []
    ensures rs == Init(rs) + [Last(rs)]
    ensures forall r :: r in rs <==> r in Init(rs) || r == Last(rs)
  {
  }

  // ---------------------------------------------------------------------
  // Date-range filter

  /** The mask: the record's timestamp lies between the midnight of the start
      date and the midnight of the end date, both ends included. */
  predicate InRange(r: Record, start: Date, end: Date)
  {
    StampLe(Midnight(start), r.stamp) && StampLe(r.stamp, Midnight(end))
  }

  /** The records the mask keeps, in store order. */
  function Filter(rs: seq<Record>, start: Date, end: Date): (out: seq<Record>)
    ensures |out| <= |rs|
    ensures forall r | r in out :: r in rs && InRange(r, start, end)
    ensures forall r | r in rs && InRange(r, start, end) :: r in out
  {
    if rs == [] then []
    else
      InitLast(rs);
      var init := Filter(Init(rs), start, end);
      if InRange(Last(rs), start, end) then init + [Last(rs)] else init
  }

  /** The positions in the store of the records the mask keeps. */
  function KeptPositions(rs: seq<Record>, start: Date, end: Date): (ps: seq<nat>)
    ensures forall i | 0 <= i < |ps| :: ps[i] < |rs|
  {
    if rs == [] then []
    else
      var init := KeptPositions(Init(rs), start, end);
      if InRange(Last(rs), start, end) then init + [|rs| - 1] else init
  }

  /** sub is whole restricted to the strictly increasing positions ps. */
  ghost predicate Embedding(sub: seq<Record>, whole: seq<Record>, ps: seq<nat>)
  {
    && |ps| == |sub|
    && (forall i | 0 <= i < |ps| :: ps[i] < |whole| && sub[i] == whole[ps[i]])
    && (forall i, j | 0 <= i < j < |ps| :: ps[i] < ps[j])
  }

  /** An embedding survives appending x to the whole, and extends by x at
      the new last position. */
  lemma EmbeddingExtends(sub: seq<Record>, whole: seq<Record>, ps: seq<nat>, x: Record)
    requires Embedding(sub, whole, ps)
    ensures Embedding(sub, whole + [x], ps)
    ensures Embedding(sub + [x], whole + [x], ps + [|whole|])
  {
    var w := whole + [x];
    assert forall i | 0 <= i < |ps| :: w[ps[i]] == whole[ps[i]];
    var s', p' := sub + [x], ps + [|whole|];
    assert forall i | 0 <= i < |ps| :: s'[i] == sub[i] && p'[i] == ps[i];
  }

  /** The filtered set is an order-preserving subsequence of the store. */
  lemma {:induction false} FilterIsSubsequence(rs: seq<Record>, start: Date, end: Date)
    ensures Embedding(Filter(rs, start, end), rs, KeptPositions(rs, start, end))
  {
    if rs != [] {
      FilterIsSubsequence(Init(rs), start, end);
      InitLast(rs);
      EmbeddingExtends(Filter(Init(rs), start, end), Init(rs), KeptPositions(Init(rs), start, end), Last(rs));
    }
  }

  /** The store position k is kept exactly when the mask holds for the
      record there. */
  lemma {:induction false} KeptPositionsExact(rs: seq<Record>, start: Date, end: Date)
    ensures forall k | 0 <= k < |rs| :: k in KeptPositions(rs, start, end) <==> InRange(rs[k], start, end)
  {
    if rs != [] {
      KeptPositionsExact(Init(rs), start, end);
      var n := |rs| - 1;
      assert forall k | 0 <= k < n :: Init(rs)[k] == rs[k];
      assert n !in KeptPositions(Init(rs), start, end);
    }
  }

  /** With valid timestamps the mask reads: not before the start date, and
      either before the end date or exactly 00:00 of the end date. */
  lemma KeptIffOnOrAfterStartAndByEndMidnight(r: Record, start: Date, end: Date)
    requires ValidStamp(r.stamp)
    ensures InRange(r, start, end) <==>
      !DateLess(DateOf(r.stamp), start) && (DateLess(DateOf(r.stamp), end) || r.stamp == Midnight(end))
  {
    MidnightStartsDay(start, r.stamp);
    AtOrBeforeMidnight(end, r.stamp);
  }

  /** Filtering to the single day d keeps exactly the records stamped d 00:00,
      in store order. */
  lemma {:induction false} SingleDayKeepsOnlyMidnight(rs: seq<Record>, d: Date)
    ensures forall r | r in Filter(rs, d, d) :: r.stamp == Midnight(d)
    ensures forall k | 0 <= k < |rs| :: k in KeptPositions(rs, d, d) <==> rs[k].stamp == Midnight(d)
  {
    KeptPositionsExact(rs, d, d);
    forall r: Record ensures InRange(r, d, d) <==> r.stamp == Midnight(d) {
      StampLeTotalOrder(Midnight(d), r.stamp, r.stamp);
    }
  }

  /** A start date after the end date keeps nothing. */
  lemma {:induction false} InvertedRangeKeepsNothing(rs: seq<Record>, start: Date, end: Date)
    requires DateLess(end, start)
    ensures Filter(rs, start, end) == []
  {
    if rs != [] {
      InvertedRangeKeepsNothing(Init(rs), start, end);
      StampLeTotalOrder(Midnight(start), Last(rs).stamp, Midnight(end));
    }
  }

  /** The earliest timestamp in a non-empty store. */
  function Earliest(rs: seq<Record>): (s: Stamp)
    requires rs != []
    ensures exists r | r in rs :: r.stamp == s
    ensures forall r | r in rs :: StampLe(s, r.stamp)
  {
    InitLast(rs);
    if |rs| == 1 then Last(rs).stamp
    else
      var e := Earliest(Init(rs));
      if StampLe(e, Last(rs).stamp) then e else Last(rs).stamp
  }

  /** The latest timestamp in a non-empty store. */
  function Latest(rs: seq<Record>): (s: Stamp)
    requires rs != []
    ensures exists r | r in rs :: r.stamp == s
    ensures forall r | r in rs :: StampLe(r.stamp, s)
  {
    InitLast(rs);
    if |rs| == 1 then Last(rs).stamp
    else
      var l := Latest(Init(rs));
      if StampLe(Last(rs).stamp, l) then l else Last(rs).stamp
  }

  datatype DateRange = DateRange(from: Date, to: Date)

  /** The pickers' initial dates: the dates of the earliest and latest
      records, or today twice when the store is empty. */
  function DefaultRange(rs: seq<Record>, today: Date): (range: DateRange)
    ensures rs == [] ==> range == DateRange(today, today)
    ensures forall r | r in rs ::
      !DateLess(DateOf(r.stamp), range.from) && !DateLess(range.to, DateOf(r.stamp))
    ensures rs != [] ==> exists r | r in rs :: DateOf(r.stamp) == range.from
    ensures rs != [] ==> exists r | r in rs :: DateOf(r.stamp) == range.to
  {
    if rs == [] then DateRange(today, today)
    else DateRange(DateOf(Earliest(rs)), DateOf(Latest(rs)))
  }

  /** Under the default range the start bound excludes nothing: a record is
      kept exactly when it is at or before 00:00 of the latest record's date. */
  lemma DefaultRangeKeeps(rs: seq<Record>, today: Date, r: Record)
    requires AllValid(rs) && r in rs
    ensures var range := DefaultRange(rs, today);
      r in Filter(rs, range.from, range.to) <==> StampLe(r.stamp, Midnight(DateOf(Latest(rs))))
  {
    var e := Earliest(rs);
    var w :| w in rs && w.stamp == e;
    MidnightStartsDay(DateOf(e), r.stamp);
    MidnightStartsDay(DateOf(e), e);
  }

  /** The default range drops the latest record whenever that record was not
      logged at exactly 00:00. */
  lemma LatestDroppedUnlessMidnight(rs: seq<Record>, today: Date)
    requires rs != [] && AllValid(rs)
    requires Latest(rs) != Midnight(DateOf(Latest(rs)))
    ensures var range := DefaultRange(rs, today);
      exists r | r in rs :: r.stamp == Latest(rs) && r !in Filter(rs, range.from, range.to)
  {
    var l := Latest(rs);
    var r :| r in rs && r.stamp == l;
    DefaultRangeKeeps(rs, today, r);
    AtOrBeforeMidnight(DateOf(l), l);
  }

  // ---------------------------------------------------------------------
  // Total

  /** The sum of the amounts; at least one per record, since each is >= 1. */
  function Total(rs: seq<Record>): (t: nat)
    ensures t >= |rs|
  {
    if rs == [] then 0 else Total(Init(rs)) + Last(rs).amount
  }

  lemma {:induction false} TotalConcat(a: seq<Record>, b: seq<Record>)
    ensures Total(a + b) == Total(a) + Total(b)
    decreases |b|
  {
    if b == [] {
      assert a + b == a;
    } else {
      assert Init(a + b) == a + Init(b);
      assert Last(a + b) == Last(b);
      TotalConcat(a, Init(b));
    }
  }

  /** The total of the kept records is the total of the store less the
      total of the dropped ones. */
  lemma {:induction false} FilterSplitsTotal(rs: seq<Record>, start: Date, end: Date)
    ensures Total(Filter(rs, start, end)) + Total(Dropped(rs, start, end)) == Total(rs)
  {
    if rs != [] {
      FilterSplitsTotal(Init(rs), start, end);
      TotalConcat(Filter(Init(rs), start, end), [Last(rs)]);
      TotalConcat(Dropped(Init(rs), start, end), [Last(rs)]);
    }
  }

  /** The records the mask drops, in store order. */
  function Dropped(rs: seq<Record>, start: Date, end: Date): (out: seq<Record>)
    ensures forall r :: r in out <==> r in rs && !InRange(r, start, end)
  {
    if rs == [] then []
    else
      InitLast(rs);
      var init := Dropped(Init(rs), start, end);
      if InRange(Last(rs), start, end) then init else init + [Last(rs)]
  }

  // ---------------------------------------------------------------------
  // Per-category sums

  /** The store holds at least one record of category c. */
  predicate Present(rs: seq<Record>, c: Category)
  {
    exists r | r in rs :: r.category == c
  }

  /** The sum of the amounts of category c; positive exactly when c occurs. */
  function CategoryTotal(rs: seq<Record>, c: Category): (t: nat)
    ensures t <= Total(rs)
    ensures t > 0 <==> Present(rs, c)
  {
    if rs == [] then 0
    else
      InitLast(rs);
      CategoryTotal(Init(rs), c) + (if Last(rs).category == c then Last(rs).amount else 0)
  }

  /** One slice of the pie: a category and its summed amount. */
  datatype CategorySum = CategorySum(category: Category, amount: nat)

  /** The sums gs have an entry for category c. */
  predicate Lists(gs: seq<CategorySum>, c: Category)
  {
    exists i | 0 <= i < |gs| :: gs[i].category == c
  }

  /** Group-by over the categories cats, in their order, keeping those that occur. */
  function GroupOver(rs: seq<Record>, cats: seq<Category>): (gs: seq<CategorySum>)
    ensures |gs| <= |cats|
  {
    if cats == [] then []
    else
      var rest := GroupOver(rs, cats[1..]);
      if Present(rs, cats[0]) then [CategorySum(cats[0], CategoryTotal(rs, cats[0]))] + rest else rest
  }

  /** Every entry of GroupOver is a category of cats that occurs, with its
      summed amount; nothing occurs in an empty store. */
  lemma {:induction false} GroupOverEntries(rs: seq<Record>, cats: seq<Category>)
    ensures forall i | 0 <= i < |GroupOver(rs, cats)| ::
      GroupOver(rs, cats)[i].category in cats && Present(rs, GroupOver(rs, cats)[i].category) &&
      GroupOver(rs, cats)[i].amount == CategoryTotal(rs, GroupOver(rs, cats)[i].category)
    ensures rs == [] ==> GroupOver(rs, cats) == []
    decreases |cats|
  {
    if cats != [] {
      GroupOverEntries(rs, cats[1..]);
      var gs, rest := GroupOver(rs, cats), GroupOver(rs, cats[1..]);
      if Present(rs, cats[0]) {
        assert forall i | 1 <= i < |gs| :: gs[i] == rest[i - 1];
      }
    }
  }

  /** Every category of cats that occurs has an entry in GroupOver. */
  lemma {:induction false} GroupOverComplete(rs: seq<Record>, cats: seq<Category>)
    ensures forall c | c in cats && Present(rs, c) :: Lists(GroupOver(rs, cats), c)
    decreases |cats|
  {
    if cats != [] {
      GroupOverComplete(rs, cats[1..]);
      var gs, rest := GroupOver(rs, cats), GroupOver(rs, cats[1..]);
      forall c | c in cats && Present(rs, c) ensures Lists(gs, c) {
        if c == cats[0] {
          assert gs[0].category == c;
        } else {
          assert c in cats[1..];
          var i :| 0 <= i < |rest| && rest[i].category == c;
          if Present(rs, cats[0]) {
            assert gs[i + 1] == rest[i];
          }
        }
      }
    }
  }

  /** Over categories of increasing rank, GroupOver lists its entries in
      increasing rank. */
  lemma {:induction false} GroupOverOrdered(rs: seq<Record>, cats: seq<Category>)
    requires Increasing(cats)
    ensures forall i, j | 0 <= i < j < |GroupOver(rs, cats)| ::
      Rank(GroupOver(rs, cats)[i].category) < Rank(GroupOver(rs, cats)[j].category)
    decreases |cats|
  {
    if cats != [] {
      assert Increasing(cats[1..]);
      GroupOverOrdered(rs, cats[1..]);
      GroupOverEntries(rs, cats[1..]);
      var gs, rest := GroupOver(rs, cats), GroupOver(rs, cats[1..]);
      if Present(rs, cats[0]) {
        assert forall c | c in cats[1..] :: Rank(cats[0]) < Rank(c);
        assert forall i | 1 <= i < |gs| :: gs[i] == rest[i - 1];
      }
    }
  }

  /** The per-category sums, listed in the sorted order of the labels: one
      entry per category that occurs, with that category's summed amount. */
  function GroupByCategory(rs: seq<Record>): (gs: seq<CategorySum>)
    ensures forall i | 0 <= i < |gs| :: Present(rs, gs[i].category) && gs[i].amount == CategoryTotal(rs, gs[i].category)
    ensures forall c :: Present(rs, c) <==> Lists(gs, c)
    ensures forall i, j | 0 <= i < j < |gs| :: Rank(gs[i].category) < Rank(gs[j].category)
    ensures rs == [] ==> gs == []
  {
    CategoriesEnumerated();
    EveryCategoryListed();
    GroupOverEntries(rs, Categories);
    GroupOverComplete(rs, Categories);
    GroupOverOrdered(rs, Categories);
    GroupOver(rs, Categories)
  }

  lemma EveryCategoryListed()
    ensures forall c: Category :: c in Categories
  {
    CategoriesEnumerated();
    forall c: Category ensures c in Categories {
      assert Categories[Rank(c)] == c;
    }
  }

  function SumOfSums(gs: seq<CategorySum>): nat
  {
    if gs == [] then 0 else gs[0].amount + SumOfSums(gs[1..])
  }

  /** The sum over cats of each category's total. */
  function SumOver(rs: seq<Record>, cats: seq<Category>): nat
  {
    if cats == [] then 0 else CategoryTotal(rs, cats[0]) + SumOver(rs, cats[1..])
  }

  lemma {:induction false} GroupOverSums(rs: seq<Record>, cats: seq<Category>)
    ensures SumOfSums(GroupOver(rs, cats)) == SumOver(rs, cats)
    decreases |cats|
  {
    if cats != [] {
      GroupOverSums(rs, cats[1..]);
    }
  }

  /** Adding one record adds its amount to the sum over distinct categories
      that include its category. */
  lemma {:induction false} SumOverStep(rs: seq<Record>, r: Record, cats: seq<Category>)
    requires Increasing(cats)
    ensures SumOver(rs + [r], cats) == SumOver(rs, cats) + (if r.category in cats then r.amount else 0)
    decreases |cats|
  {
    if cats != [] {
      assert Init(rs + [r]) == rs;
      assert Increasing(cats[1..]);
      SumOverStep(rs, r, cats[1..]);
      assert r.category in cats <==> r.category == cats[0] || r.category in cats[1..];
      if r.category == cats[0] {
        assert r.category !in cats[1..];
      }
    }
  }

  lemma {:induction false} SumOverEmpty(cats: seq<Category>)
    ensures SumOver([], cats) == 0
    decreases |cats|
  {
    if cats != [] {
      SumOverEmpty(cats[1..]);
    }
  }

  lemma {:induction false} SumOverAllIsTotal(rs: seq<Record>)
    ensures SumOver(rs, Categories) == Total(rs)
  {
    CategoriesEnumerated();
    if rs == [] {
      SumOverEmpty(Categories);
    } else {
      SumOverAllIsTotal(Init(rs));
      InitLast(rs);
      SumOverStep(Init(rs), Last(rs), Categories);
      EveryCategoryListed();
      calc {
        SumOver(rs, Categories);
        SumOver(Init(rs) + [Last(rs)], Categories);
        SumOver(Init(rs), Categories) + Last(rs).amount;
        Total(Init(rs)) + Last(rs).amount;
        Total(rs);
      }
    }
  }

  /** Conservation: the per-category sums add up to the total. */
  lemma CategorySumsConserveTotal(rs: seq<Record>)
    ensures SumOfSums(GroupByCategory(rs)) == Total(rs)
  {
    GroupOverSums(rs, Categories);
    SumOverAllIsTotal(rs);
  }

  // ---------------------------------------------------------------------
  // Chart guard and table view

  /** The guard of the chart branch: a non-empty selection with a positive
      total. With unbounded sums the second test follows from the first. */
  predicate ChartDrawn(fs: seq<Record>)
    ensures ChartDrawn(fs) <==> fs != []
  {
    fs != [] && Total(fs) > 0
  }

  /** The chart is drawn exactly when there is at least one slice to draw;
      for sums that do not overflow (sums here are unbounded), the
      positive-total test never decides anything on its own. */
  lemma ChartDrawnIffSlices(fs: seq<Record>)
    ensures ChartDrawn(fs) <==> fs != []
    ensures ChartDrawn(fs) <==> GroupByCategory(fs) != []
  {
    if fs != [] {
      assert Present(fs, fs[0].category);
    }
  }

  /** The rows in reverse order: the newest record first. */
  function Reversed(s: seq<Record>): (r: seq<Record>)
    ensures |r| == |s|
  {
    if s == [] then [] else [Last(s)] + Reversed(Init(s))
  }

  /** The k-th displayed row is the k-th record counted from the end. */
  lemma {:induction false} ReversedAt(s: seq<Record>, k: nat)
    requires k < |s|
    ensures Reversed(s)[k] == s[|s| - 1 - k]
  {
    if k > 0 {
      ReversedAt(Init(s), k - 1);
    }
  }

  /** Every displayed row is the record at the mirrored position. */
  lemma ReversedRows(s: seq<Record>)
    ensures forall k | 0 <= k < |s| :: Reversed(s)[k] == s[|s| - 1 - k]
  {
    forall k | 0 <= k < |s| ensures Reversed(s)[k] == s[|s| - 1 - k] {
      ReversedAt(s, k);
    }
  }

  /** Reversing twice gives back the sequence. */
  lemma ReversedTwice(s: seq<Record>)
    ensures Reversed(Reversed(s)) == s
  {
    var r := Reversed(s);
    forall k | 0 <= k < |s| ensures Reversed(r)[k] == s[k] {
      ReversedAt(r, k);
      ReversedAt(s, |s| - 1 - k);
    }
  }
}

=== FILE: expense.dfy ===
/**
 * The records of the expense ledger: the five category labels offered by the
 * entry form, minute-precision timestamps, calendar dates, and the record
 * itself (Date, Amount, Category, Note).
 */
module Expense {

  /** The five categories of the entry form's select box. */
  datatype Category = Food | Shopping | Travel | Fun | Other

  /** The label kept in the Category column; each one starts with an emoji. */
  function Label(c: Category): string
  {
    match c
    case Food => "\U{1F35C} Food"
    case Shopping => "\U{1F4BC} Shopping"
    case Travel => "\U{1F695} Travel"
    case Fun => "\U{1F389} Fun"
    case Other => "\U{1F4CC} Other"
  }

  /** Strict lexicographic order on strings by code point: the order in which
      a sorting group-by lists string keys. */
  predicate TextLess(a: string, b: string)
    decreases |a|
  {
    if a == [] then b != []
    else if b == [] then false
    else a[0] < b[0] || (a[0] == b[0] && TextLess(a[1..], b[1..]))
  }

  /** Position of a category's label among the five labels in sorted order. */
  function Rank(c: Category): nat
  {
    match c
    case Food => 0
    case Fun => 1
    case Shopping => 2
    case Other => 3
    case Travel => 4
  }

  /** The five categories in the order of their sorted labels. */
  const Categories: seq<Category> := [Food, Fun, Shopping, Other, Travel]

  /** Categories listed with strictly increasing rank. */
  predicate Increasing(cats: seq<Category>)
  {
    forall i, j | 0 <= i < j < |cats| :: Rank(cats[i]) < Rank(cats[j])
  }

  lemma TextLessByHead(a: string, b: string)
    requires a != [] && b != [] && a[0] != b[0]
    ensures TextLess(a, b) <==> a[0] < b[0]
  {
  }

  /** No string comes before itself. */
  lemma {:induction false} TextLessIrreflexive(a: string)
    ensures !TextLess(a, a)
    decreases |a|
  {
    if a != [] {
      TextLessIrreflexive(a[1..]);
    }
  }

  /** The first character of each label: its emoji. */
  function Emoji(c: Category): char
    ensures Label(c) != [] && Label(c)[0] == Emoji(c)
  {
    match c
    case Food => '\U{1F35C}'
    case Shopping => '\U{1F4BC}'
    case Travel => '\U{1F695}'
    case Fun => '\U{1F389}'
    case Other => '\U{1F4CC}'
  }

  /** Ranking categories is the same as comparing their labels as strings,
      and the labels tell the categories apart. */
  lemma RankFollowsLabels(a: Category, b: Category)
    ensures Rank(a) < Rank(b) <==> TextLess(Label(a), Label(b))
    ensures Label(a) == Label(b) <==> a == b
  {
    assert Rank(a) < Rank(b) <==> Emoji(a) < Emoji(b) by {
      match a
      case Food =>
      case Fun =>
      case Shopping =>
      case Other =>
      case Travel =>
    }
    if a != b {
      assert Emoji(a) != Emoji(b);
      TextLessByHead(Label(a), Label(b));
    } else {
      TextLessIrreflexive(Label(a));
    }
  }

  /** Every category occurs in Categories, at the position given by its rank,
      and the list is ordered by label. */
  lemma CategoriesEnumerated()
    ensures Increasing(Categories)
    ensures forall c: Category :: Rank(c) < |Categories| && Categories[Rank(c)] == c
    ensures forall i, j | 0 <= i < j < |Categories| :: TextLess(Label(Categories[i]), Label(Categories[j]))
  {
    forall i, j | 0 <= i < j < |Categories|
      ensures Rank(Categories[i]) < Rank(Categories[j])
      ensures TextLess(Label(Categories[i]), Label(Categories[j]))
    {
      assert forall k | 0 <= k < |Categories| :: Rank(Categories[k]) == k;
      RankFollowsLabels(Categories[i], Categories[j]);
    }
  }

  /** A timestamp with minute precision, as written in the Date column. */
  datatype Stamp = Stamp(year: int, month: int, day: int, hour: int, minute: int)

  /** A calendar date, as chosen in the date-range pickers. */
  datatype Date = Date(year: int, month: int, day: int)

  predicate LeapYear(y: int)
  {
    y % 4 == 0 && (y % 100 != 0 || y % 400 == 0)
  }

  function DaysInMonth(y: int, m: int): int
  {
    if m == 2 then (if LeapYear(y) then 29 else 28)
    else if m == 4 || m == 6 || m == 9 || m == 11 then 30
    else 31
  }

  /** A date the calendar has, within years 1 to 9999. */
  predicate ValidDate(d: Date)
  {
    1 <= d.year <= 9999 && 1 <= d.month <= 12 && 1 <= d.day <= DaysInMonth(d.year, d.month)
  }

  function DateOf(s: Stamp): Date
  {
    Date(s.year, s.month, s.day)
  }

  predicate ValidStamp(s: Stamp)
  {
    ValidDate(DateOf(s)) && 0 <= s.hour < 24 && 0 <= s.minute < 60
  }

  /** The timestamp a date denotes when it is compared with timestamps: 00:00. */
  function Midnight(d: Date): Stamp
  {
    Stamp(d.year, d.month, d.day, 0, 0)
  }

  /** Chronological order of timestamps: lexicographic on the five fields. */
  predicate StampLe(a: Stamp, b: Stamp)
  {
    a.year < b.year || (a.year == b.year &&
    (a.month < b.month || (a.month == b.month &&
    (a.day < b.day || (a.day == b.day &&
    (a.hour < b.hour || (a.hour == b.hour && a.minute <= b.minute)))))))
  }

  /** Chronological order of dates. */
  predicate DateLess(a: Date, b: Date)
  {
    a.year < b.year || (a.year == b.year &&
    (a.month < b.month || (a.month == b.month && a.day < b.day)))
  }

  /** StampLe is a total order. */
  lemma StampLeTotalOrder(a: Stamp, b: Stamp, c: Stamp)
    ensures StampLe(a, a)
    ensures StampLe(a, b) && StampLe(b, a) ==> a == b
    ensures StampLe(a, b) && StampLe(b, c) ==> StampLe(a, c)
    ensures StampLe(a, b) || StampLe(b, a)
  {
  }

  /** Midnight is the first minute of its day: a valid timestamp is at or
      after midnight of date d exactly when its own date is not before d. */
  lemma MidnightStartsDay(d: Date, s: Stamp)
    requires ValidStamp(s)
    ensures StampLe(Midnight(d), s) <==> !DateLess(DateOf(s), d)
  {
  }

  /** A valid timestamp is at or before midnight of date d exactly when its
      date is before d, or it is d at 00:00 itself. */
  lemma AtOrBeforeMidnight(d: Date, s: Stamp)
    requires ValidStamp(s)
    ensures StampLe(s, Midnight(d)) <==> DateLess(DateOf(s), d) || s == Midnight(d)
  {
  }

  /** An amount: the entry form accepts whole numbers from 1 up. */
  type Amount = n: int | n >= 1 witness 1

  /** One logged expense: one row of the store. */
  datatype Record = Record(stamp: Stamp, amount: Amount, category: Category, note: string)

  /** Every record carries a timestamp the clock can produce. */
  predicate AllValid(rs: seq<Record>)
  {
    forall i | 0 <= i < |rs| :: ValidStamp(rs[i].stamp)
  }
}

=== FILE: monthly.dfy ===
/**
 * The monthly top-spending report over the whole (unfiltered) store: group
 * the records by month key and category summing the amounts, then keep, for
 * each month, the first row with the largest sum. Month keys and categories
 * are listed in sorted order, as a sorting group-by lists them, so ties go
 * to the category whose label sorts first.
 */
module Monthly {
  import opened Wrappers
  import opened Expense
  import opened Aggregate

  /** The "YYYY-MM" month key of a timestamp, as a pair. For four-digit years
      the order of the pairs is the order of the key strings. */
  datatype MonthKey = MonthKey(year: int, month: int)

  function MonthOf(s: Stamp): MonthKey
  {
    MonthKey(s.year, s.month)
  }

  predicate MonthLess(a: MonthKey, b: MonthKey)
  {
    a.year < b.year || (a.year == b.year && a.month < b.month)
  }

  predicate StrictlySorted(ms: seq<MonthKey>)
  {
    forall i, j | 0 <= i < j < |ms| :: MonthLess(ms[i], ms[j])
  }

  /** Some record of the store falls in month m. */
  predicate MonthPresent(rs: seq<Record>, m: MonthKey)
  {
    exists r | r in rs :: MonthOf(r.stamp) == m
  }

  /** Adds m to a sorted list of distinct month keys, keeping it sorted. */
  function InsertMonth(ms: seq<MonthKey>, m: MonthKey): (out: seq<MonthKey>)
    requires StrictlySorted(ms)
    ensures StrictlySorted(out)
    ensures forall x :: x in out <==> x in ms || x == m
  {
    if ms == [] then [m]
    else if m == ms[0] then ms
    else if MonthLess(m, ms[0]) then [m] + ms
    else
      assert StrictlySorted(ms[1..]);
      assert forall x | x in ms[1..] :: MonthLess(ms[0], x);
      [ms[0]] + InsertMonth(ms[1..], m)
  }

  /** The distinct month keys of the store, in increasing order. */
  function Months(rs: seq<Record>): (ms: seq<MonthKey>)
    ensures StrictlySorted(ms)
    ensures forall m :: m in ms <==> MonthPresent(rs, m)
  {
    if rs == [] then []
    else
      InitLast(rs);
      InsertMonth(Months(Init(rs)), MonthOf(Last(rs).stamp))
  }

  /** The records of month m, in store order. */
  function InMonth(rs: seq<Record>, m: MonthKey): (out: seq<Record>)
    ensures forall r :: r in out <==> r in rs && MonthOf(r.stamp) == m
  {
    if rs == [] then []
    else
      InitLast(rs);
      var init := InMonth(Init(rs), m);
      if MonthOf(Last(rs).stamp) == m then init + [Last(rs)] else init
  }

  /** The summed amount of category c in month m. */
  function MonthCategoryTotal(rs: seq<Record>, m: MonthKey, c: Category): nat
  {
    CategoryTotal(InMonth(rs, m), c)
  }

  /** Index of the first largest sum, as idxmax picks it. */
  function FirstMax(gs: seq<CategorySum>): (k: nat)
    requires gs != []
    ensures k < |gs|
    ensures forall j | 0 <= j < |gs| :: gs[j].amount <= gs[k].amount
    ensures forall j | 0 <= j < k :: gs[j].amount < gs[k].amount
  {
    if |gs| == 1 then 0
    else
      var k := FirstMax(gs[1..]);
      if gs[0].amount >= gs[k + 1].amount then 0 else k + 1
  }

  /** The winning category of a non-empty set of records: its sum is at
      least every category's sum, and every category ranked before it sums
      to strictly less. */
  function Winner(fs: seq<Record>): (w: CategorySum)
    requires fs != []
    ensures Present(fs, w.category) && w.amount == CategoryTotal(fs, w.category)
    ensures forall c :: CategoryTotal(fs, c) <= w.amount
    ensures forall c | Rank(c) < Rank(w.category) :: CategoryTotal(fs, c) < w.amount
  {
    var gs := GroupByCategory(fs);
    assert Present(fs, fs[0].category);
    var k := FirstMax(gs);
    WinnerBeatsRivals(fs, gs, k);
    gs[k]
  }

  lemma WinnerBeatsRivals(fs: seq<Record>, gs: seq<CategorySum>, k: nat)
    requires gs == GroupByCategory(fs) && gs != [] && k < |gs|
    requires forall j | 0 <= j < |gs| :: gs[j].amount <= gs[k].amount
    requires forall j | 0 <= j < k :: gs[j].amount < gs[k].amount
    ensures forall c :: CategoryTotal(fs, c) <= gs[k].amount
    ensures forall c | Rank(c) < Rank(gs[k].category) :: CategoryTotal(fs, c) < gs[k].amount
  {
    forall c
      ensures CategoryTotal(fs, c) <= gs[k].amount
      ensures Rank(c) < Rank(gs[k].category) ==> CategoryTotal(fs, c) < gs[k].amount
    {
      if Present(fs, c) {
        assert Lists(gs, c);
        var j :| 0 <= j < |gs| && gs[j].category == c;
        if Rank(c) < Rank(gs[k].category) {
          assert j < k;
        }
      }
    }
  }

  /** One row of the monthly report. */
  datatype SummaryRow = SummaryRow(month: MonthKey, category: Category, amount: nat)

  /** The summary rows of month m: one per category that occurs in it. */
  function MonthRows(rs: seq<Record>, m: MonthKey): seq<SummaryRow>
  {
    var gs := GroupByCategory(InMonth(rs, m));
    seq(|gs|, i requires 0 <= i < |gs| => SummaryRow(m, gs[i].category, gs[i].amount))
  }

  function SummaryOver(rs: seq<Record>, ms: seq<MonthKey>): seq<SummaryRow>
  {
    if ms == [] then [] else MonthRows(rs, ms[0]) + SummaryOver(rs, ms[1..])
  }

  /** The group-by over (month, category) with summed amounts, sorted by
      month key and, within a month, by category, with no pair twice. */
  function MonthlySummary(rs: seq<Record>): (rows: seq<SummaryRow>)
    ensures SortedRows(rows)
  {
    SummaryOverSorted(rs, Months(rs));
    SummaryOver(rs, Months(rs))
  }

  /** A row of month m is in MonthRows exactly when its category occurs in m
      and it carries that category's sum. */
  lemma MonthRowsHold(rs: seq<Record>, m: MonthKey, row: SummaryRow)
    ensures row in MonthRows(rs, m) <==>
      row.month == m && Present(InMonth(rs, m), row.category) && row.amount == MonthCategoryTotal(rs, m, row.category)
  {
    var gs := GroupByCategory(InMonth(rs, m));
    var rows := MonthRows(rs, m);
    if row.month == m && Present(InMonth(rs, m), row.category) && row.amount == MonthCategoryTotal(rs, m, row.category) {
      assert Lists(gs, row.category);
      var i :| 0 <= i < |gs| && gs[i].category == row.category;
      assert rows[i] == row;
    }
  }

  lemma {:induction false} SummaryOverHolds(rs: seq<Record>, ms: seq<MonthKey>, row: SummaryRow)
    ensures row in SummaryOver(rs, ms) <==> row.month in ms && row in MonthRows(rs, row.month)
    decreases |ms|
  {
    if ms != [] {
      SummaryOverHolds(rs, ms[1..], row);
      MonthRowsHold(rs, ms[0], row);
      assert row.month in ms <==> row.month == ms[0] || row.month in ms[1..];
    }
  }

  /** The summary holds exactly one row per (month, category) pair that
      occurs in the store, carrying that pair's summed amount. */
  lemma MonthlySummaryHolds(rs: seq<Record>, row: SummaryRow)
    ensures row in MonthlySummary(rs) <==>
      MonthPresent(rs, row.month) && Present(InMonth(rs, row.month), row.category)
      && row.amount == MonthCategoryTotal(rs, row.month, row.category)
  {
    SummaryOverHolds(rs, Months(rs), row);
    MonthRowsHold(rs, row.month, row);
  }

  /** Summary rows in group-by order: by month key, then by category label. */
  predicate RowBefore(a: SummaryRow, b: SummaryRow)
  {
    MonthLess(a.month, b.month) || (a.month == b.month && Rank(a.category) < Rank(b.category))
  }

  predicate SortedRows(rows: seq<SummaryRow>)
  {
    forall i, j | 0 <= i < j < |rows| :: RowBefore(rows[i], rows[j])
  }

  lemma MonthRowsSorted(rs: seq<Record>, m: MonthKey)
    ensures forall i | 0 <= i < |MonthRows(rs, m)| :: MonthRows(rs, m)[i].month == m
    ensures SortedRows(MonthRows(rs, m))
  {
    var gs := GroupByCategory(InMonth(rs, m));
    var rows := MonthRows(rs, m);
    assert forall i | 0 <= i < |rows| :: rows[i].category == gs[i].category;
  }

  /** Rows of one month followed by sorted rows of later months are sorted. */
  lemma ConcatSorted(head: seq<SummaryRow>, rest: seq<SummaryRow>, m: MonthKey)
    requires SortedRows(head) && SortedRows(rest)
    requires forall i | 0 <= i < |head| :: head[i].month == m
    requires forall i | 0 <= i < |rest| :: MonthLess(m, rest[i].month)
    ensures SortedRows(head + rest)
  {
    var rows := head + rest;
    forall i, j | 0 <= i < j < |rows| ensures RowBefore(rows[i], rows[j]) {
      if j < |head| {
        assert rows[i] == head[i] && rows[j] == head[j];
      } else if i < |head| {
        assert rows[i] == head[i] && rows[j] == rest[j - |head|];
      } else {
        assert rows[i] == rest[i - |head|] && rows[j] == rest[j - |head|];
      }
    }
  }

  lemma {:induction false} SummaryOverSorted(rs: seq<Record>, ms: seq<MonthKey>)
    requires StrictlySorted(ms)
    ensures forall i | 0 <= i < |SummaryOver(rs, ms)| :: SummaryOver(rs, ms)[i].month in ms
    ensures SortedRows(SummaryOver(rs, ms))
    decreases |ms|
  {
    if ms != [] {
      assert StrictlySorted(ms[1..]);
      SummaryOverSorted(rs, ms[1..]);
      MonthRowsSorted(rs, ms[0]);
      var head, rest := MonthRows(rs, ms[0]), SummaryOver(rs, ms[1..]);
      assert forall m | m in ms[1..] :: MonthLess(ms[0], m) && m in ms;
      ConcatSorted(head, rest, ms[0]);
      var rows := head + rest;
      forall i | 0 <= i < |rows| ensures rows[i].month in ms {
        if i >= |head| {
          assert rows[i] == rest[i - |head|];
        }
      }
    }
  }

  /** Some record of month m has it present among the month's records. */
  lemma MonthNonEmpty(rs: seq<Record>, m: MonthKey)
    requires MonthPresent(rs, m)
    ensures InMonth(rs, m) != []
  {
    var r :| r in rs && MonthOf(r.stamp) == m;
    assert r in InMonth(rs, m);
  }

  /** The report row of month m: the month's winning category and its sum. */
  function TopOf(rs: seq<Record>, m: MonthKey): (t: SummaryRow)
    requires MonthPresent(rs, m)
    ensures t.month == m
    ensures Present(InMonth(rs, m), t.category) && t.amount == MonthCategoryTotal(rs, m, t.category)
    ensures forall c :: MonthCategoryTotal(rs, m, c) <= t.amount
    ensures forall c | Rank(c) < Rank(t.category) :: MonthCategoryTotal(rs, m, c) < t.amount
  {
    MonthNonEmpty(rs, m);
    var w := Winner(InMonth(rs, m));
    SummaryRow(m, w.category, w.amount)
  }

  /** The top-spending table: one row per month key, in increasing order. */
  function TopSpends(rs: seq<Record>): (top: seq<SummaryRow>)
    ensures |top| == |Months(rs)|
    ensures forall i | 0 <= i < |top| :: top[i].month == Months(rs)[i]
  {
    var ms := Months(rs);
    seq(|ms|, i requires 0 <= i < |ms| => TopOf(rs, ms[i]))
  }

  /** The report shows one row for each month that occurs and for no other,
      months in increasing order; each row is a row of the summary whose sum
      is the largest of its month, ties going to the first category. */
  lemma TopSpendsCorrect(rs: seq<Record>)
    ensures var top := TopSpends(rs);
      && (forall i, j | 0 <= i < j < |top| :: MonthLess(top[i].month, top[j].month))
      && (forall m :: MonthPresent(rs, m) <==> exists i | 0 <= i < |top| :: top[i].month == m)
      && (forall i | 0 <= i < |top| :: top[i] in MonthlySummary(rs))
      && (forall i, c | 0 <= i < |top| :: MonthCategoryTotal(rs, top[i].month, c) <= top[i].amount)
      && (forall i, c | 0 <= i < |top| && Rank(c) < Rank(top[i].category) ::
            MonthCategoryTotal(rs, top[i].month, c) < top[i].amount)
  {
    var top, ms := TopSpends(rs), Months(rs);
    forall m | MonthPresent(rs, m) ensures exists i | 0 <= i < |top| :: top[i].month == m {
      var i :| 0 <= i < |ms| && ms[i] == m;
      assert top[i].month == m;
    }
    forall i | 0 <= i < |top| ensures top[i] in MonthlySummary(rs) {
      assert top[i] == TopOf(rs, ms[i]);
      MonthlySummaryHolds(rs, top[i]);
    }
    forall i | 0 <= i < |top|
      ensures forall c :: MonthCategoryTotal(rs, top[i].month, c) <= top[i].amount
      ensures forall c | Rank(c) < Rank(top[i].category) :: MonthCategoryTotal(rs, top[i].month, c) < top[i].amount
    {
      assert top[i] == TopOf(rs, ms[i]);
    }
  }

  /** The report is shown only for a non-empty store. */
  function MonthlyReport(rs: seq<Record>): (report: Option<seq<SummaryRow>>)
    ensures report.None? <==> rs == []
    ensures report.Some? ==> |report.value| >= 1
  {
    if rs == [] then None
    else
      assert rs[0] in rs;
      assert MonthOf(rs[0].stamp) in Months(rs);
      Some(TopSpends(rs))
  }
}

=== FILE: report.dfy ===
/**
 * One run of the page script: select the user's store (creating it on first
 * use), append the submitted expense if any, then compute everything the
 * page shows from the store as it now stands.
 */
module Report {
  import opened Wrappers
  import opened Expense
  import opened Aggregate
  import opened Monthly
  import opened Store

  /** What one run shows: the filtered records, their total, the pie slices
      when the chart is drawn, the newest-first table, and the monthly report
      when the store is not empty. */
  datatype View = View(
    filtered: seq<Record>,
    total: nat,
    chart: Option<seq<CategorySum>>,
    table: seq<Record>,
    monthly: Option<seq<SummaryRow>>)

  function Render(rs: seq<Record>, range: DateRange): View
  {
    var fs := Filter(rs, range.from, range.to);
    View(fs, Total(fs), if ChartDrawn(fs) then Some(GroupByCategory(fs)) else None, Reversed(fs), MonthlyReport(rs))
  }

  /** The parts of a view agree with one another: the chart is drawn exactly
      when something was kept, its slices add up to the total, the total is
      zero exactly when nothing was kept, the table lists the kept records
      newest first, and the monthly report does not depend on the range. */
  lemma RenderConsistent(rs: seq<Record>, range: DateRange, other: DateRange)
    ensures Render(rs, range).chart.Some? <==> Render(rs, range).filtered != []
    ensures Render(rs, range).chart.Some? ==> SumOfSums(Render(rs, range).chart.value) == Render(rs, range).total
    ensures Render(rs, range).total == 0 <==> Render(rs, range).filtered == []
    ensures |Render(rs, range).table| == |Render(rs, range).filtered|
    ensures forall k | 0 <= k < |Render(rs, range).table| ::
      Render(rs, range).table[k] == Render(rs, range).filtered[|Render(rs, range).filtered| - 1 - k]
    ensures Render(rs, range).monthly == Render(rs, other).monthly
  {
    RenderChartConsistent(rs, range);
    RenderTableConsistent(rs, range);
  }

  /** The chart and the total of a view agree with its selection. */
  lemma RenderChartConsistent(rs: seq<Record>, range: DateRange)
    ensures Render(rs, range).chart.Some? <==> Render(rs, range).filtered != []
    ensures Render(rs, range).chart.Some? ==> SumOfSums(Render(rs, range).chart.value) == Render(rs, range).total
    ensures Render(rs, range).total == 0 <==> Render(rs, range).filtered == []
  {
    var fs := Filter(rs, range.from, range.to);
    CategorySumsConserveTotal(fs);
    var v := Render(rs, range);
    assert v.filtered == fs && v.total == Total(fs);
    assert v.chart == if ChartDrawn(fs) then Some(GroupByCategory(fs)) else None;
  }

  /** The table of a view lists its selection newest first. */
  lemma RenderTableConsistent(rs: seq<Record>, range: DateRange)
    ensures |Render(rs, range).table| == |Render(rs, range).filtered|
    ensures forall k | 0 <= k < |Render(rs, range).table| ::
      Render(rs, range).table[k] == Render(rs, range).filtered[|Render(rs, range).filtered| - 1 - k]
  {
    TableMirrors(Render(rs, range));
  }

  /** A table that is the reversed selection lists the selection newest first. */
  lemma TableMirrors(v: View)
    requires v.table == Reversed(v.filtered)
    ensures |v.table| == |v.filtered|
    ensures forall k | 0 <= k < |v.table| :: v.table[k] == v.filtered[|v.filtered| - 1 - k]
  {
    ReversedRows(v.filtered);
  }

  /** Over one fixed range (dates the user chose, say), appending one record
      changes the shown total by its amount exactly when the range keeps it.
      Under the default range an append also moves the end bound to the new
      record's date, so records of the previous latest day become visible
      while the new record is usually dropped. */
  lemma {:induction false} AppendMovesTotal(rs: seq<Record>, e: Record, range: DateRange)
    ensures Render(rs + [e], range).total ==
      Render(rs, range).total + (if InRange(e, range.from, range.to) then e.amount else 0)
  {
    assert Init(rs + [e]) == rs;
    var fs := Filter(rs, range.from, range.to);
    TotalConcat(fs, [e]);
  }

  /** A submitted expense from the entry form. */
  datatype Entry = Entry(amount: Amount, category: Category, note: string)

  /** One run of the page for a user: nothing is shown and nothing changes
      for an empty username; otherwise the store is opened, the submitted
      entry (if any) is appended with the current time, and the view is
      rendered from the store as it now stands, over the chosen range or,
      when none is chosen, over the default range. */
  method Run(disk: Disk, username: string, submitted: Option<Entry>, now: Stamp, today: Date, chosen: Option<DateRange>)
    returns (view: Option<View>)
    requires disk.Valid() && ValidStamp(now)
    modifies disk
    ensures disk.Valid()
    ensures view.None? <==> username == ""
    ensures username == "" ==> disk.files == old(disk.files)
    ensures username != "" ==>
      var path := StorePath(username).value;
      var before := if path in old(disk.files) then old(disk.files)[path] else [];
      var after := if submitted.Some?
        then before + [Record(now, submitted.value.amount, submitted.value.category, submitted.value.note)]
        else before;
      && disk.files == old(disk.files)[path := after]
      && view == Some(Render(after, if chosen.Some? then chosen.value else DefaultRange(after, today)))
  {
    var path := disk.Open(username);
    if path.None? {
      return None;
    }
    ghost var before := disk.files[path.value];
    assert before == if path.value in old(disk.files) then old(disk.files)[path.value] else [];
    ghost var after := before;
    if submitted.Some? {
      var entry := disk.AddExpense(path.value, now, submitted.value.amount, submitted.value.category, submitted.value.note);
      after := before + [entry];
    }
    assert disk.files == old(disk.files)[path.value := after];
    var rs := disk.Load(path.value);
    assert rs == after;
    var range := if chosen.Some? then chosen.value else DefaultRange(rs, today);
    view := Some(Render(rs, range));
  }
}

=== FILE: store.dfy ===
/**
 * The per-user store: the file name derived from the username, and the
 * files themselves, each an ordered sequence of records. A store is created
 * empty on first use; adding an expense loads the whole store, appends one
 * record and writes the whole store back.
 */
module Store {
  import opened Wrappers
  import opened Expense

  const Prefix: string := "data_"
  const Suffix: string := ".csv"

  /** The store file of a user; an empty username stops the run, so it has
      no store. */
  function StorePath(username: string): (path: Option<string>)
    ensures path.None? <==> username == ""
    ensures path.Some? ==> |path.value| == |Prefix| + |username| + |Suffix|
  {
    if username == "" then None else Some(Prefix + username + Suffix)
  }

  /** The username a store file name was made from, if it was made by
      StorePath. */
  function UsernameOf(path: string): Option<string>
  {
    if |path| > |Prefix| + |Suffix| && path[..|Prefix|] == Prefix && path[|path| - |Suffix|..] == Suffix
    then Some(path[|Prefix|..|path| - |Suffix|])
    else None
  }

  /** The username can be read back from its store's file name. */
  lemma StorePathRoundTrip(username: string)
    requires username != ""
    ensures UsernameOf(StorePath(username).value) == Some(username)
  {
    var path := Prefix + username + Suffix;
    assert path[..|Prefix|] == Prefix;
    assert path[|path| - |Suffix|..] == Suffix;
    assert path[|Prefix|..|path| - |Suffix|] == username;
  }

  /** The store file name determines the username. */
  lemma StorePathInjective(u: string, v: string)
    requires StorePath(u) == StorePath(v)
    ensures u == v
  {
    if u != "" {
      StorePathRoundTrip(u);
      StorePathRoundTrip(v);
    }
  }

  /** The files on disk: each store path holds an ordered sequence of records. */
  class Disk {
    var files: map<string, seq<Record>>

    /** Every stored record carries a timestamp the clock can produce. */
    ghost predicate Valid()
      reads this
    {
      forall path | path in files :: AllValid(files[path])
    }

    constructor ()
      ensures Valid() && files == map[]
    {
      files := map[];
    }

    /** Selects the user's store and creates it empty if it does not exist;
        with an empty username nothing happens. */
    method Open(username: string) returns (path: Option<string>)
      requires Valid()
      modifies this
      ensures Valid()
      ensures path == StorePath(username)
      ensures path.Some? ==> path.value in files
      ensures path.None? ==> files == old(files)
      ensures path.Some? ==> files == if path.value in old(files) then old(files) else old(files)[path.value := []]
    {
      path := StorePath(username);
      if path.Some? && path.value !in files {
        files := files[path.value := []];
      }
    }

    /** Reads a whole store. */
    method Load(path: string) returns (rs: seq<Record>)
      requires Valid() && path in files
      ensures rs == files[path] && AllValid(rs)
    {
      rs := files[path];
    }

    /** Adds an expense: the new record, stamped now, goes after every
        existing one and the whole store is written back; other stores are
        untouched. */
    method AddExpense(path: string, now: Stamp, amount: Amount, category: Category, note: string)
      returns (entry: Record)
      requires Valid() && path in files && ValidStamp(now)
      modifies this
      ensures Valid()
      ensures entry == Record(now, amount, category, note)
      ensures files == old(files)[path := old(files[path]) + [entry]]
      ensures |files[path]| == |old(files[path])| + 1 && files[path][..|old(files[path])|] == old(files[path])
    {
      var rs := Load(path);
      entry := Record(now, amount, category, note);
      rs := rs + [entry];
      files := files[path := rs];
    }
  }
}

=== FILE: walkthrough.dfy ===
/**
 * A worked example: three expenses logged into an empty store, two in
 * January 2024 and one in February 2024, and what the page shows for them.
 */
module Walkthrough {
  import opened Expense
  import opened Aggregate
  import opened Monthly

  const Lunch := Record(Stamp(2024, 1, 5, 10, 0), 100, Food, "")
  const Cab := Record(Stamp(2024, 1, 20, 9, 0), 50, Travel, "")
  const Snack := Record(Stamp(2024, 2, 1, 8, 0), 30, Food, "")
  const Logged: seq<Record> := [Lunch, Cab, Snack]

  lemma LoggedSplits()
    ensures Init(Logged) == [Lunch, Cab] && Last(Logged) == Snack
    ensures Init([Lunch, Cab]) == [Lunch] && Last([Lunch, Cab]) == Cab
    ensures Init([Lunch]) == [] && Last([Lunch]) == Lunch
  {
  }

  /** In a set of records holding only Food and Travel, the pie lists Food
      then Travel. */
  lemma FoodAndTravelSlices(rs: seq<Record>)
    requires Present(rs, Food) && Present(rs, Travel)
    requires !Present(rs, Fun) && !Present(rs, Shopping) && !Present(rs, Other)
    ensures GroupByCategory(rs) == [CategorySum(Food, CategoryTotal(rs, Food)), CategorySum(Travel, CategoryTotal(rs, Travel))]
  {
    var food, travel := CategorySum(Food, CategoryTotal(rs, Food)), CategorySum(Travel, CategoryTotal(rs, Travel));
    assert GroupOver(rs, []) == [];
    assert [Travel][1..] == [];
    assert GroupOver(rs, [Travel]) == [travel];
    assert [Other, Travel][1..] == [Travel];
    assert GroupOver(rs, [Other, Travel]) == [travel];
    assert [Shopping, Other, Travel][1..] == [Other, Travel];
    assert GroupOver(rs, [Shopping, Other, Travel]) == [travel];
    assert [Fun, Shopping, Other, Travel][1..] == [Shopping, Other, Travel];
    assert GroupOver(rs, [Fun, Shopping, Other, Travel]) == [travel];
    assert Categories[1..] == [Fun, Shopping, Other, Travel];
    assert GroupOver(rs, Categories) == [food, travel];
  }

  lemma LoggedTotals()
    ensures Total(Logged) == 180
    ensures GroupByCategory(Logged) == [CategorySum(Food, 130), CategorySum(Travel, 50)]
  {
    LoggedSplits();
    assert Total([Lunch]) == 100;
    assert Total([Lunch, Cab]) == 150;
    assert CategoryTotal([Lunch], Food) == 100;
    assert CategoryTotal([Lunch, Cab], Food) == 100;
    assert CategoryTotal(Logged, Food) == 130;
    assert CategoryTotal([Lunch], Travel) == 0;
    assert CategoryTotal([Lunch, Cab], Travel) == 50;
    assert CategoryTotal(Logged, Travel) == 50;
    assert Lunch in Logged && Cab in Logged;
    FoodAndTravelSlices(Logged);
  }

  /** Filtering to January keeps the first two records. */
  lemma JanuaryTotals()
    ensures Filter(Logged, Date(2024, 1, 1), Date(2024, 1, 31)) == [Lunch, Cab]
    ensures Total([Lunch, Cab]) == 150
    ensures GroupByCategory([Lunch, Cab]) == [CategorySum(Food, 100), CategorySum(Travel, 50)]
  {
    LoggedSplits();
    var from, to := Date(2024, 1, 1), Date(2024, 1, 31);
    assert Filter([Lunch], from, to) == [Lunch];
    assert Filter([Lunch, Cab], from, to) == [Lunch, Cab];
    assert !InRange(Snack, from, to);
    assert Total([Lunch]) == 100;
    assert CategoryTotal([Lunch], Food) == 100;
    assert CategoryTotal([Lunch, Cab], Food) == 100;
    assert CategoryTotal([Lunch], Travel) == 0;
    assert CategoryTotal([Lunch, Cab], Travel) == 50;
    assert Lunch in [Lunch, Cab] && Cab in [Lunch, Cab];
    FoodAndTravelSlices([Lunch, Cab]);
  }

  /** The store spans two month keys; January holds the first two records. */
  lemma LoggedMonths()
    ensures Months(Logged) == [MonthKey(2024, 1), MonthKey(2024, 2)]
    ensures InMonth(Logged, MonthKey(2024, 1)) == [Lunch, Cab]
    ensures InMonth(Logged, MonthKey(2024, 2)) == [Snack]
  {
    LoggedSplits();
    var jan, feb := MonthKey(2024, 1), MonthKey(2024, 2);
    assert Months([Lunch]) == [jan];
    assert Months([Lunch, Cab]) == [jan];
    assert [jan][1..] == [];
    assert InsertMonth([jan], feb) == [jan, feb];
    assert InMonth([Lunch], jan) == [Lunch];
    assert InMonth([Lunch, Cab], jan) == [Lunch, Cab];
    assert InMonth([Lunch], feb) == [];
    assert InMonth([Lunch, Cab], feb) == [];
  }

  /** January: Food's 100 beats Travel's 50. */
  lemma JanuaryWinner()
    ensures TopOf(Logged, MonthKey(2024, 1)) == SummaryRow(MonthKey(2024, 1), Food, 100)
  {
    LoggedMonths();
    JanuaryTotals();
    var jan := MonthKey(2024, 1);
    assert Lunch in Logged;
    var t := TopOf(Logged, jan);
    assert MonthCategoryTotal(Logged, jan, Food) == 100;
    assert MonthCategoryTotal(Logged, jan, Travel) == 50;
    assert Present([Lunch, Cab], t.category);
  }

  /** February: Food is the only category. */
  lemma FebruaryWinner()
    ensures TopOf(Logged, MonthKey(2024, 2)) == SummaryRow(MonthKey(2024, 2), Food, 30)
  {
    LoggedMonths();
    var feb := MonthKey(2024, 2);
    assert Snack in Logged;
    var t := TopOf(Logged, feb);
    assert Init([Snack]) == [] && Last([Snack]) == Snack;
    assert CategoryTotal([Snack], Food) == 30;
    assert Present([Snack], t.category);
  }

  /** Food wins both months. */
  lemma LoggedTopSpends()
    ensures TopSpends(Logged) == [SummaryRow(MonthKey(2024, 1), Food, 100), SummaryRow(MonthKey(2024, 2), Food, 30)]
  {
    LoggedMonths();
    JanuaryWinner();
    FebruaryWinner();
  }
}

=== FILE: wrappers.dfy ===
/** The optional value used wherever the ledger may produce nothing. */
module Wrappers {

  datatype Option<+T> = None | Some(value: T)
}
